=== FILE: README.md ===
# Regional property backend: replication state machine

This project models the core of one regional backend of a two-region
property-listing system (`backend-eu/index.js`). Each region keeps its own
`properties` table and serves `PUT /properties/:id` against it. A committed
update is then published to the `property-updates` topic (the answer is 500
and nothing is published when the send throws). Each region's consumer
applies to its own table every event whose region_origin is not its own
region.

The model treats one backend process as a pure state machine. Its state
(`Replica.State`) has four parts:

- **store**: the properties table, a map from id to a row of price, bedrooms,
  bathrooms, region_origin, version and updated_at;
- **processed**: the in-memory set of committed X-Request-ID values;
- **lastReplicated**: the updated_at of the last applied remote event, if any;
- **outbox**: the rows published to the topic, in order.

There are four operations, each one atomic step:

- `Command.Handle` is the PUT handler. It answers 400 when the request id is
  missing or empty and 422 when the id was seen before. Otherwise it runs the
  optimistic-concurrency `UPDATE ... WHERE id = ... AND version = ...`, which
  answers 409 when no row matches. On a match it marks the request id and
  publishes the updated row, answering 200. It answers 500 when the query or
  the publish throws.
- `Replication.Apply` is the consumer callback. It drops events whose
  region_origin is the local region. It upserts every other event: an absent
  id gets the full row; a present one has only price, version and updated_at
  overwritten. It then records the event's updated_at as the lag timestamp.
- `Lag.LagCentis` is the `/replication-lag` report.
- `Lookup.Get` is the `GET /properties/:id` lookup.

`System.Run` interleaves requests and deliveries in any order. The lemmas
about it state what survives every run: request ids stay marked, the outbox
only grows, rows are never deleted, a PUT never creates a row, and events
whose region_origin is the local region are ignored.

The following are parameters of the model:

- the database clock `NOW()` (an integer of milliseconds);
- the local region (the `REGION` environment variable);
- the wall clock of the lag report;
- whether the PUT handler's UPDATE query throws, whether its publish
  throws, and whether the consumer's upsert query throws.

Two behaviours of the code are stated as they are written, although a
replicated store would usually be expected to behave otherwise:

- The consumer's upsert overwrites unconditionally, so an older event lowers
  the stored version. `Replication.ApplyCanRegressVersion` proves this, and
  `Scenarios.OlderEventDeliveredAgainRegresses` shows it for an older event
  delivered again after a newer one. A version-guarded upsert is not part
  of this model.
- A published event might be expected to carry the publishing region as its
  origin. The code publishes the `RETURNING *` row instead, and the UPDATE
  does not set region_origin, so the event keeps the origin the row already
  had. The model follows the code. Two lemmas prove the consequences for an
  update made in one region to a row that came from the other region.
  `System.CommitOfForeignRowIsDroppedAtItsOrigin`: the other region's
  consumer drops the event. `System.CommitOfForeignRowIsReappliedLocally`:
  the publishing region's own consumer applies it, which leaves the table as
  it was but moves the lag timestamp to that region's own commit time.

## Model

| member | source | states |
|---|---|---|
| `Replica.Start` | backend-eu/index.js:17-19 | A freshly started process holds the table as the database has it. It has no committed request ids, no lag timestamp and nothing published. |
| `Command.Status` | backend-eu/index.js:70-107 | Each outcome maps to its own status code: 400 missing id, 422 duplicate, 409 conflict, 200 updated, 500 server error. |
| `Command.ConditionalUpdate` | backend-eu/index.js:82-93 | A row comes back exactly when the id is stored with the expected version. That row has the new price, version + 1 and updated_at = now; its bedrooms, bathrooms and region_origin are unchanged. |
| `Command.Handle` | backend-eu/index.js:64-109 | Each response holds under an if-and-only-if condition. A 400, 422, 409 or query-failure 500 leaves the whole state unchanged, and a 409 leaves the request id unmarked. A commit changes only the target row's price, version (+1) and updated_at, and keeps every other id. It also marks the request id. The 200 body is the stored row and is appended to the outbox once. In this model, a 500 after a commit keeps the table change and the marker but publishes nothing. The lag timestamp never moves. |
| `Replication.Upsert` | backend-eu/index.js:39-47 | An absent id gets the full event row. A present id gets the event's price, version and updated_at but keeps its bedrooms, bathrooms and region_origin. All other ids are untouched, and the keys gain only the event id. |
| `Replication.Apply` | backend-eu/index.js:32-52 | An event whose region_origin is the local region leaves the state unchanged, and so does a failed write. A foreign event is upserted, and lastReplicated becomes its updated_at. Request ids and the outbox never change. |
| `Replication.ApplyIdempotent` | backend-eu/index.js:39-50 | Delivering the same event twice gives the same state as delivering it once. |
| `Replication.ApplyCanRegressVersion` | backend-eu/index.js:42-45 | A foreign event with a lower version than the stored row lowers the stored version. |
| `Lag.RoundToCentis` | backend-eu/index.js:118-121 | The result is the millisecond difference rounded to the nearest centisecond, with ties rounded away from zero. |
| `Lag.LagCentis` | backend-eu/index.js:112-122 | The lag is 0 when no remote event was applied. Otherwise it is now minus the last updated_at, rounded to centiseconds. |
| `Lag.RoundsToUnique` | backend-eu/index.js:118-121 | The rounding relation allows at most one result for each input. |
| `Lag.LagMonotoneInNow` | backend-eu/index.js:117-118 | A later clock never reports a smaller lag. |
| `Lag.LagExactOnCentis` | backend-eu/index.js:118-121 | A difference of a whole number of centiseconds is reported exactly. |
| `Lookup.Get` | backend-eu/index.js:127-130 | The lookup finds a row exactly when the id is stored, and the row it returns is the stored one. |
| `System.RunKeepsProcessed` | backend-eu/index.js:72-96 | No sequence of requests and deliveries removes a marked request id. |
| `System.DuplicateAfterCommit` | backend-eu/index.js:72-96 | After a commit, any later command with the same request id gets 422 and changes nothing. This holds whatever happens in between. |
| `System.RetryAfterConflict` | backend-eu/index.js:82-96 | After a 409 on a stored id, retrying the same request id with the stored version succeeds. |
| `System.PutNeverCreates` | backend-eu/index.js:82-93 | A PUT for an id the table lacks never answers 200 and leaves the state unchanged. |
| `System.RunExtendsOutbox` | backend-eu/index.js:99-102 | Over any run, the old outbox is a prefix of the new one. |
| `System.RunKeys` | backend-eu/index.js:39-47 | Over any run, keys are never lost. New keys are only the ids of delivered events. |
| `System.LocalRunKeepsVersionsMonotone` | backend-eu/index.js:83-86 | Over a run of requests alone, every stored version is non-decreasing. |
| `System.SelfOriginatedRunIsNoop` | backend-eu/index.js:36-51 | Any run of deliveries whose region_origin is the local region leaves the state unchanged. |
| `System.ChainedCommandsAllSucceed` | backend-eu/index.js:82-104 | Take fault-free commands with fresh, distinct request ids whose expected versions are v, v+1, and so on. Each one commits: the version rises by exactly their number, and the outbox grows by one row per command. The i-th new outbox row is that id at version v + i + 1 with the i-th command's price. |
| `System.CommitPropagates` | backend-eu/index.js:95-102 | A row committed in one region and applied in another gives the other region the same price, version and updated_at. If the two copies agreed on the other columns, they become equal. |
| `System.CommitOfForeignRowIsDroppedAtItsOrigin` | backend-eu/index.js:83-101 | The published row keeps the stored region_origin, and the region of that origin drops the event. |
| `System.CommitOfForeignRowIsReappliedLocally` | backend-eu/index.js:36-50 | When the stored origin of the updated row is not the local region, the local consumer re-applies the published row. This leaves the table unchanged and sets the lag timestamp to the commit time. |
| `System.GetAfterHandle` | backend-eu/index.js:127-130 | After a 200, the GET of the id returns the 200 body. A commit keeps the id found and changes no other lookup. A PUT that does not commit changes no lookup. |
| `System.GetAfterApply` | backend-eu/index.js:127-130 | An event whose region_origin is the local region, or a failed write, changes no lookup. An applied event makes its id found, with the full event row when the id was new, and changes no other lookup. |
| `System.LagAfterApply` | backend-eu/index.js:49-50 | Right after applying a remote event with updated_at T, the lag is now minus T, rounded. |
| `System.LocalRunKeepsLag` | backend-eu/index.js:49-50 | A run of requests alone never moves the lag timestamp. |
| `Scenarios.CommitThenReplicate` | backend-eu/index.js:64-122 | A "us" commit of price 100 on version 0 is applied in "eu". The "eu" copy becomes price 100, version 1, origin "us", and the lag 1.23 s later is 123 centiseconds. |
| `Scenarios.DoubleSubmit` | backend-eu/index.js:72-104 | The same PUT sent twice gets 200 and then 422, and the version ends at 2. |
| `Scenarios.StaleVersion` | backend-eu/index.js:82-93 | A PUT with version 0 when version 1 is stored gets 409 and changes nothing. |
| `Scenarios.OlderEventDeliveredAgainRegresses` | backend-eu/index.js:32-47 | A consumer that applied versions 1 and 2 and is then delivered version 1 again is left with version 1 and price 100. |

## Left out

- Express routing, request and response objects, `/health` and `app.listen`: HTTP plumbing. Only the status outcomes are kept, as `Command.Response`.
- The Postgres pool and the Kafka producer and consumer clients: foreign I/O. They become the `store` map and the `outbox` sequence. The failure of the UPDATE, of the publish and of the consumer's upsert are boolean parameters.
- Lookup.Get: a failing SELECT in the GET route is not modelled. The route has no try/catch, so such a request gets no answer from the handler.
- The `initKafka` connect, subscribe and retry loop with its 5-second delay: transport and timing, not state logic.
- Command.Handle: a throwing query or send is taken to have had no effect, and each successful send publishes the row exactly once. In the client library a send can throw after the broker stored the row, so a 500 may still reach the other region, and a retried send can put a 200's row on the topic twice. An UPDATE whose connection drops after the commit is likewise taken to have changed nothing.
- The broker's delivery policy: where a consumer group starts reading (`fromBeginning` applies only to a group with no committed offset), redelivery after a callback throws, and ordering across partitions of unkeyed messages. The model only gives what one delivery does to the state.
- `JSON.parse` failures on a malformed message: a foreign call whose throw belongs to the client library.
- Concurrency between the consumer and the handlers, including the window between the duplicate check and the marking of the request id. Each operation is one atomic step.
- Request-body typing: price and expected version are integers. A missing or null version binds NULL, matches no row and would be answered 409. A non-numeric version fails Postgres's integer conversion, so the query throws and the answer is 500. A missing price is not modelled either.
- The id's type conversion between the path string and the table key: ids are integers.
- The width of the version column and an overflow error on `version + 1`: versions are unbounded integers.
- Lag.LagCentis: it uses integer milliseconds and integer centiseconds instead of floating-point seconds. An exact tie at 5 ms rounds away from zero. `toFixed(2)` rounds the nearest binary double, so a tie can go either way there.
- A version-guarded upsert is not in the code and is not modelled. Only the regression the literal upsert allows is shown.

=== FILE: command.dfy ===
/** The `PUT /properties/:id` command handler: the idempotency check on the
    X-Request-ID header, the optimistic-concurrency conditional update, and
    the publication of the updated row.
 */
module Command {
  import opened Replica

  /** A PUT request: the id from the path, the X-Request-ID header (None when
      the header is absent) and the price and expected version from the
      body. */
  datatype Put = Put(id: Id, requestId: Option<RequestId>, price: int, version: int)

  /** Which of the handler's two awaited I/O calls throw: the UPDATE query,
      and the send to the property-updates topic. A call that throws is
      taken to have had no effect, and a send that returns to have published
      the row once. */
  datatype Faults = Faults(queryFails: bool, publishFails: bool)

  const NoFaults := Faults(false, false)

  /** The handler's HTTP outcomes. */
  datatype Response =
    | MissingRequestId   // 400
    | Duplicate          // 422
    | Conflict           // 409
    | Updated(row: Row)  // 200, body is the updated row
    | ServerError        // 500

  /** The HTTP status code sent for a response. */
  function Status(r: Response): (code: int)
    ensures code == 200 <==> r.Updated?
    ensures r.MissingRequestId? <==> code == 400
    ensures r.Duplicate? <==> code == 422
    ensures r.Conflict? <==> code == 409
    ensures r.ServerError? <==> code == 500
  {
    match r
    case MissingRequestId => 400
    case Duplicate => 422
    case Conflict => 409
    case Updated(_) => 200
    case ServerError => 500
  }

  datatype Outcome = Outcome(response: Response, next: State)

  /** The header is present and not the empty string (JavaScript's
      `!requestId` is true for both undefined and ""). */
  predicate HasRequestId(rid: Option<RequestId>) {
    rid.Some? && rid.value != ""
  }

  /** The command gets past both idempotency checks. */
  predicate Admitted(s: State, cmd: Put) {
    HasRequestId(cmd.requestId) && cmd.requestId.value !in s.processed
  }

  /** The UPDATE runs and matches a row: the point after which the table has
      changed, whatever the publish does. */
  predicate Commits(s: State, cmd: Put, f: Faults) {
    Admitted(s, cmd) && !f.queryFails && VersionMatches(s.store, cmd.id, cmd.version)
  }

  /** `UPDATE properties SET price = p, version = version + 1,
      updated_at = NOW() WHERE id = id AND version = expected RETURNING *`:
      the new row when one matches, None when zero rows match. */
  function ConditionalUpdate(store: map<Id, Property>, id: Id, price: int, expected: int, now: int)
    : (r: Option<Property>)
    ensures r.Some? <==> VersionMatches(store, id, expected)
    ensures r.Some? ==>
      && r.value.price == price
      && r.value.version == store[id].version + 1 == expected + 1
      && r.value.updatedAt == now
      && r.value.bedrooms == store[id].bedrooms
      && r.value.bathrooms == store[id].bathrooms
      && r.value.regionOrigin == store[id].regionOrigin
  {
    if id in store && store[id].version == expected then
      var prev := store[id];
      Some(prev.(price := price, version := prev.version + 1, updatedAt := now))
    else
      None
  }

  /** The handler, as one atomic step. `now` is the database's NOW(). */
  function Handle(s: State, cmd: Put, now: int, f: Faults): (o: Outcome)
    // the response, case by case
    ensures o.response.MissingRequestId? <==> !HasRequestId(cmd.requestId)
    ensures o.response.Duplicate? <==> HasRequestId(cmd.requestId) && cmd.requestId.value in s.processed
    ensures o.response.Conflict? <==>
      Admitted(s, cmd) && !f.queryFails && !VersionMatches(s.store, cmd.id, cmd.version)
    ensures o.response.Updated? <==> Commits(s, cmd, f) && !f.publishFails
    ensures o.response.ServerError? <==>
      Admitted(s, cmd) && (f.queryFails || (VersionMatches(s.store, cmd.id, cmd.version) && f.publishFails))
    // nothing happens unless the UPDATE committed
    ensures !Commits(s, cmd, f) ==> o.next == s
    // what a commit changes in the table, and what it leaves alone
    ensures Commits(s, cmd, f) ==>
      && o.next.store.Keys == s.store.Keys
      && OthersUntouched(s.store, o.next.store, cmd.id)
      && o.next.store[cmd.id].price == cmd.price
      && o.next.store[cmd.id].version == s.store[cmd.id].version + 1
      && o.next.store[cmd.id].updatedAt == now
      && o.next.store[cmd.id].bedrooms == s.store[cmd.id].bedrooms
      && o.next.store[cmd.id].bathrooms == s.store[cmd.id].bathrooms
      && o.next.store[cmd.id].regionOrigin == s.store[cmd.id].regionOrigin
    // a commit marks the request id, even when the publish then fails
    ensures Commits(s, cmd, f) ==> o.next.processed == s.processed + {cmd.requestId.value}
    ensures o.next.lastReplicated == s.lastReplicated
    // the published row is the stored row and the response body
    ensures Commits(s, cmd, f) && !f.publishFails ==>
      && o.response.row == Row(cmd.id, o.next.store[cmd.id])
      && o.next.outbox == s.outbox + [o.response.row]
    ensures Commits(s, cmd, f) && f.publishFails ==> o.next.outbox == s.outbox
  {
    if !HasRequestId(cmd.requestId) then
      Outcome(MissingRequestId, s)
    else if cmd.requestId.value in s.processed then
      Outcome(Duplicate, s)
    else if f.queryFails then
      Outcome(ServerError, s)
    else
      match ConditionalUpdate(s.store, cmd.id, cmd.price, cmd.version, now)
      case None => Outcome(Conflict, s)
      case Some(p) =>
        var committed := s.(store := s.store[cmd.id := p],
                            processed := s.processed + {cmd.requestId.value});
        if f.publishFails then
          Outcome(ServerError, committed)
        else
          var row := Row(cmd.id, p);
          Outcome(Updated(row), committed.(outbox := committed.outbox + [row]))
  }
}

=== FILE: lag.dfy ===
/** The `/replication-lag` report: how long ago, by this region's clock, the
    last applied remote event was written.

    Times are integer milliseconds and the reported lag is an integer number
    of centiseconds, the two-decimal seconds value scaled by 100.
 */
module Lag {
  import opened Replica

  /** `c` centiseconds is `d` milliseconds rounded to the nearest hundredth of
      a second, a tie going away from zero: the rounding `toFixed(2)` applies
      to the magnitude, with the sign put back in front. */
  predicate RoundsTo(d: int, c: int) {
    if d >= 0 then -5 < 10 * c - d <= 5 else -5 <= 10 * c - d < 5
  }

  /** Round half away from zero of d / 10. */
  function RoundToCentis(d: int): (c: int)
    ensures RoundsTo(d, c)
  {
    if d >= 0 then (d + 5) / 10 else -((5 - d) / 10)
  }

  /** The reported lag: 0 when no remote event was ever applied, otherwise
      now minus the last applied event's updated_at. */
  function LagCentis(last: Option<int>, now: int): (c: int)
    ensures last.None? ==> c == 0
    ensures last.Some? ==> RoundsTo(now - last.value, c)
  {
    match last
    case None => 0
    case Some(t) => RoundToCentis(now - t)
  }

  /** The rounding relation is a function: at most one value is the lag. */
  lemma RoundsToUnique(d: int, c1: int, c2: int)
    requires RoundsTo(d, c1) && RoundsTo(d, c2)
    ensures c1 == c2
  {
  }

  /** A later clock never reports a smaller lag for the same last event. */
  lemma LagMonotoneInNow(last: Option<int>, now1: int, now2: int)
    requires now1 <= now2
    ensures LagCentis(last, now1) <= LagCentis(last, now2)
  {
  }

  /** A whole number of centiseconds is reported exactly. */
  lemma LagExactOnCentis(t: int, now: int, k: int)
    requires now - t == 10 * k
    ensures LagCentis(Some(t), now) == k
  {
  }
}

=== FILE: lookup.dfy ===
/** The `GET /properties/:id` point lookup. */
module Lookup {
  import opened Replica

  /** The row for `id` when the table has one, None for the "Not found"
      body. The lookup reads nothing but the table and changes nothing. */
  function Get(s: State, id: Id): (r: Option<Row>)
    ensures r.Some? <==> id in s.store
    ensures r.Some? ==> r.value.id == id && r.value.prop == s.store[id]
  {
    if id in s.store then Some(Row(id, s.store[id])) else None
  }
}

=== FILE: replica.dfy ===
/** The replicated state of one regional backend.

    The properties table, the in-memory set of request identifiers already
    committed, the timestamp of the last applied remote event and the events
    this region has published, taken together as one immutable value. The
    operations on it (the command handler, the replication apply, the lag
    report and the point lookup) live in their own modules and are pure
    functions from a state to a state.
 */
module Replica {

  /** Key of the properties table. */
  type Id = int

  /** Value of the X-Request-ID header. */
  type RequestId = string

  /** Name of a region, as held in the REGION environment variable and in
      the region_origin column. */
  type Region = string

  datatype Option<+T> = None | Some(value: T)

  /** One row of the properties table without its key. Timestamps are
      integer milliseconds since the epoch. */
  datatype Property = Property(
    price: int,
    bedrooms: int,
    bathrooms: int,
    regionOrigin: Region,
    version: int,
    updatedAt: int)

  /** A full row with its key: what `RETURNING *` yields and what travels on
      the property-updates topic. */
  datatype Row = Row(id: Id, prop: Property)

  /** The state one backend process acts on.
      - store: the properties table, keyed by id;
      - processed: request identifiers whose command committed;
      - lastReplicated: updated_at of the last applied remote event, if any;
      - outbox: the rows published to the property-updates topic, in order. */
  datatype State = State(
    store: map<Id, Property>,
    processed: set<RequestId>,
    lastReplicated: Option<int>,
    outbox: seq<Row>)

  /** A process that has just started: whatever the table holds, nothing
      committed, nothing replicated and nothing published yet. */
  function Start(table: map<Id, Property>): (s: State)
    ensures s.store == table
    ensures s.processed == {} && s.lastReplicated == None && s.outbox == []
  {
    State(table, {}, None, [])
  }

  /** The store holds a row for `id` whose version is `v`: the predicate of
      the optimistic-concurrency `WHERE id = ... AND version = ...`. */
  predicate VersionMatches(store: map<Id, Property>, id: Id, v: int) {
    id in store && store[id].version == v
  }

  /** Every key other than `id` is present in `after` exactly when it is in
      `before`, with the same row. */
  predicate OthersUntouched(before: map<Id, Property>, after: map<Id, Property>, id: Id) {
    && (forall k :: k != id && k in before ==> k in after && after[k] == before[k])
    && (forall k :: k != id && k in after ==> k in before)
  }
}

=== FILE: replication.dfy ===
/** The consumer side: what the eachMessage callback does with one event read
    from the property-updates topic.
 */
module Replication {
  import opened Replica

  /** `INSERT ... VALUES (the event's seven columns) ON CONFLICT (id) DO UPDATE
      SET price, version, updated_at = the event's`: an absent id gets the whole
      event row; a present one has only those three columns overwritten, with
      no comparison of versions. */
  function Upsert(store: map<Id, Property>, e: Row): (r: map<Id, Property>)
    ensures r.Keys == store.Keys + {e.id}
    ensures OthersUntouched(store, r, e.id)
    ensures e.id !in store ==> r[e.id] == e.prop
    ensures e.id in store ==>
      && r[e.id].price == e.prop.price
      && r[e.id].version == e.prop.version
      && r[e.id].updatedAt == e.prop.updatedAt
      && r[e.id].bedrooms == store[e.id].bedrooms
      && r[e.id].bathrooms == store[e.id].bathrooms
      && r[e.id].regionOrigin == store[e.id].regionOrigin
  {
    if e.id in store then
      var stored := store[e.id];
      store[e.id := stored.(price := e.prop.price, version := e.prop.version,
                            updatedAt := e.prop.updatedAt)]
    else
      store[e.id := e.prop]
  }

  /** The event's region_origin names another region, so the consumer
      applies it. (A row keeps its region_origin through local updates, so
      this is not the same as the event having been published elsewhere.) */
  predicate Foreign(region: Region, e: Row) {
    e.prop.regionOrigin != region
  }

  /** One event delivered to the consumer of `region`. `writeFails` says that
      the upsert query throws, in which case the callback stops before the lag
      timestamp is recorded. */
  function Apply(s: State, region: Region, e: Row, writeFails: bool): (s': State)
    // events whose origin is the local region, and failed writes, change nothing
    ensures !Foreign(region, e) || writeFails ==> s' == s
    ensures Foreign(region, e) && !writeFails ==>
      && s'.store.Keys == s.store.Keys + {e.id}
      && OthersUntouched(s.store, s'.store, e.id)
      && s'.store[e.id].price == e.prop.price
      && s'.store[e.id].version == e.prop.version
      && s'.store[e.id].updatedAt == e.prop.updatedAt
      && (e.id !in s.store ==> s'.store[e.id] == e.prop)
      && (e.id in s.store ==>
            && s'.store[e.id].bedrooms == s.store[e.id].bedrooms
            && s'.store[e.id].bathrooms == s.store[e.id].bathrooms
            && s'.store[e.id].regionOrigin == s.store[e.id].regionOrigin)
      && s'.lastReplicated == Some(e.prop.updatedAt)
    // the consumer never touches the request ids or the outbox
    ensures s'.processed == s.processed && s'.outbox == s.outbox
  {
    if Foreign(region, e) && !writeFails then
      s.(store := Upsert(s.store, e), lastReplicated := Some(e.prop.updatedAt))
    else
      s
  }

  /** Delivering the same event a second time changes nothing more: the
      at-least-once redelivery of a single event is harmless. */
  lemma ApplyIdempotent(s: State, region: Region, e: Row)
    ensures Apply(Apply(s, region, e, false), region, e, false) == Apply(s, region, e, false)
  {
  }

  /** The upsert is not guarded by version: a foreign event older than the
      stored row overwrites it, and the stored version goes backwards. */
  lemma ApplyCanRegressVersion(s: State, region: Region, e: Row)
    requires Foreign(region, e)
    requires e.id in s.store && e.prop.version < s.store[e.id].version
    ensures Apply(s, region, e, false).store[e.id].version < s.store[e.id].version
  {
  }
}

=== FILE: scenarios.dfy ===
/** Concrete runs of two regional backends, "us" and "eu", on one property. */
module Scenarios {
  import opened Replica
  import opened Command
  import opened Replication
  import Lag

  /** Property 1 as both tables hold it at first: written in "us" at
      version 0. */
  const Seed := Property(90, 3, 2, "us", 0, 1000)

  /** "us" commits price 100 on version 0 at time 5000 and publishes; "eu"
      applies the event; the "eu" copy then shows price 100, version 1 and
      origin "us", and 1.23 s later "eu" reports a lag of 123 centiseconds. */
  lemma CommitThenReplicate()
    ensures var us := Handle(Start(map[1 := Seed]), Put(1, Some("r0"), 100, 0), 5000, NoFaults);
      && us.response == Updated(Row(1, Property(100, 3, 2, "us", 1, 5000)))
      && var eu := Apply(Start(map[1 := Seed]), "eu", us.response.row, false);
      && eu.store[1] == us.next.store[1]
      && eu.store[1] == Property(100, 3, 2, "us", 1, 5000)
      && Lag.LagCentis(eu.lastReplicated, 6230) == 123
  {
  }

  /** The same PUT with X-Request-ID r1 sent twice: the first gets 200, the
      second 422, and the stored version ends at 2, not 3. */
  lemma DoubleSubmit()
    ensures var s0 := Start(map[1 := Seed.(version := 1)]);
      var put := Put(1, Some("r1"), 150, 1);
      var first := Handle(s0, put, 2000, NoFaults);
      var second := Handle(first.next, put, 2001, NoFaults);
      && Status(first.response) == 200
      && Status(second.response) == 422
      && second.next.store[1].version == 2
  {
  }

  /** A PUT on version 0 when version 1 is stored gets 409 and leaves the
      state as it was. */
  lemma StaleVersion()
    ensures var s0 := Start(map[1 := Seed.(version := 1)]);
      var o := Handle(s0, Put(1, Some("r2"), 150, 0), 2000, NoFaults);
      Status(o.response) == 409 && o.next == s0
  {
  }

  /** A consumer that has applied versions 1 and 2 is delivered the older
      version 1 again (a redelivery, or an older message overtaking a newer
      one on another partition), and the stored version falls back from 2
      to 1. */
  lemma OlderEventDeliveredAgainRegresses()
    ensures var v1 := Row(1, Property(100, 3, 2, "us", 1, 5000));
      var v2 := Row(1, Property(110, 3, 2, "us", 2, 6000));
      var before := Apply(Apply(Start(map[1 := Seed]), "eu", v1, false), "eu", v2, false);
      var after := Apply(before, "eu", v1, false);
      && before.store[1].version == 2
      && after.store[1].version == 1
      && after.store[1].price == 100
  {
  }
}

=== FILE: system.dfy ===
/** One backend process over time: requests to the command handler and events
    delivered to the replication consumer, interleaved in any order, each
    taken as one atomic step.
 */
module System {
  import opened Replica
  import opened Command
  import opened Replication
  import Lag
  import Lookup

  /** Something that happens to a backend: a PUT served at database time
      `now`, or an event read from the property-updates topic. */
  datatype Input =
    | Request(cmd: Put, now: int, faults: Faults)
    | Deliver(event: Row, writeFails: bool)

  function Step(s: State, region: Region, i: Input): State {
    match i
    case Request(cmd, now, f) => Handle(s, cmd, now, f).next
    case Deliver(e, wf) => Apply(s, region, e, wf)
  }

  /** The state after the inputs, in order, of the backend of `region`. */
  function Run(s: State, region: Region, inputs: seq<Input>): State
    decreases |inputs|
  {
    if inputs == [] then s else Run(Step(s, region, inputs[0]), region, inputs[1..])
  }

  /** The ids of the delivered events among the inputs. */
  function DeliveredIds(inputs: seq<Input>): set<Id> {
    set i | 0 <= i < |inputs| && inputs[i].Deliver? :: inputs[i].event.id
  }

  /** A request id, once committed, stays committed: the set only grows. */
  lemma {:induction false} RunKeepsProcessed(s: State, region: Region, inputs: seq<Input>)
    ensures s.processed <= Run(s, region, inputs).processed
    decreases |inputs|
  {
    if inputs != [] {
      RunKeepsProcessed(Step(s, region, inputs[0]), region, inputs[1..]);
    }
  }

  /** Once a command has committed, every later command carrying the same
      request id is answered 422, whatever happened in between, and it
      changes nothing. */
  lemma DuplicateAfterCommit(s: State, region: Region, cmd: Put, now: int, f: Faults,
                             between: seq<Input>, retry: Put, now2: int, f2: Faults)
    requires Commits(s, cmd, f)
    requires retry.requestId == cmd.requestId
    ensures var later := Run(Handle(s, cmd, now, f).next, region, between);
      && Handle(later, retry, now2, f2).response == Duplicate
      && Handle(later, retry, now2, f2).next == later
  {
    RunKeepsProcessed(Handle(s, cmd, now, f).next, region, between);
  }

  /** A 409 leaves the request id unmarked: the same request id retried with
      the stored version is not taken for a duplicate and succeeds. */
  lemma RetryAfterConflict(s: State, cmd: Put, now: int, now2: int)
    requires Handle(s, cmd, now, NoFaults).response == Conflict
    requires cmd.id in s.store
    ensures var retry := cmd.(version := s.store[cmd.id].version);
      Handle(Handle(s, cmd, now, NoFaults).next, retry, now2, NoFaults).response.Updated?
  {
  }

  /** A PUT never creates a row: for an id the table lacks, the answer is
      409 (or an earlier 400/422, or 500 when the query throws). */
  lemma PutNeverCreates(s: State, cmd: Put, now: int, f: Faults)
    requires cmd.id !in s.store
    ensures !Handle(s, cmd, now, f).response.Updated?
    ensures Handle(s, cmd, now, f).next == s
  {
  }

  /** The outbox is append-only: what was published stays published. */
  lemma {:induction false} RunExtendsOutbox(s: State, region: Region, inputs: seq<Input>)
    ensures s.outbox <= Run(s, region, inputs).outbox
    decreases |inputs|
  {
    if inputs != [] {
      var s1 := Step(s, region, inputs[0]);
      RunExtendsOutbox(s1, region, inputs[1..]);
    }
  }

  /** Rows are never deleted, and new rows appear only through replication:
      the keys after a run lie between the keys before and those plus the ids
      of the delivered events. */
  lemma {:induction false} RunKeys(s: State, region: Region, inputs: seq<Input>)
    ensures s.store.Keys <= Run(s, region, inputs).store.Keys
    ensures Run(s, region, inputs).store.Keys <= s.store.Keys + DeliveredIds(inputs)
    decreases |inputs|
  {
    if inputs != [] {
      var s1 := Step(s, region, inputs[0]);
      RunKeys(s1, region, inputs[1..]);
      assert DeliveredIds(inputs[1..]) <= DeliveredIds(inputs) by {
        forall k | k in DeliveredIds(inputs[1..])
          ensures k in DeliveredIds(inputs)
        {
          var i :| 0 <= i < |inputs[1..]| && inputs[1..][i].Deliver? && inputs[1..][i].event.id == k;
          assert inputs[i + 1] == inputs[1..][i];
        }
      }
      if inputs[0].Deliver? {
        assert inputs[0].event.id in DeliveredIds(inputs);
      }
    }
  }

  /** Only requests, no deliveries. */
  predicate AllRequests(inputs: seq<Input>) {
    forall i :: 0 <= i < |inputs| ==> inputs[i].Request?
  }

  /** Local commands alone never lower a stored version: the compare-and-swap
      only ever adds one. */
  lemma {:induction false} LocalRunKeepsVersionsMonotone(s: State, region: Region, inputs: seq<Input>)
    requires AllRequests(inputs)
    ensures var t := Run(s, region, inputs);
      forall id :: id in s.store ==> id in t.store && s.store[id].version <= t.store[id].version
    decreases |inputs|
  {
    if inputs != [] {
      var s1 := Step(s, region, inputs[0]);
      assert AllRequests(inputs[1..]) by {
        forall i | 0 <= i < |inputs[1..]| ensures inputs[1..][i].Request? {
          assert inputs[1..][i] == inputs[i + 1];
        }
      }
      LocalRunKeepsVersionsMonotone(s1, region, inputs[1..]);
    }
  }

  /** Only deliveries, each of an event whose region_origin is the local
      region. */
  predicate AllSelfOriginated(inputs: seq<Input>, region: Region) {
    forall i :: 0 <= i < |inputs| ==> inputs[i].Deliver? && !Foreign(region, inputs[i].event)
  }

  /** Reading back events whose region_origin is the local region, however
      many, changes nothing: not the table, not the lag timestamp. (An event
      this backend published for a row whose stored origin is the other
      region is not among them; see CommitOfForeignRowIsReappliedLocally.) */
  lemma {:induction false} SelfOriginatedRunIsNoop(s: State, region: Region, inputs: seq<Input>)
    requires AllSelfOriginated(inputs, region)
    ensures Run(s, region, inputs) == s
    decreases |inputs|
  {
    if inputs != [] {
      assert AllSelfOriginated(inputs[1..], region) by {
        forall i | 0 <= i < |inputs[1..]|
          ensures inputs[1..][i].Deliver? && !Foreign(region, inputs[1..][i].event)
        {
          assert inputs[1..][i] == inputs[i + 1];
        }
      }
      SelfOriginatedRunIsNoop(s, region, inputs[1..]);
    }
  }

  /** Fault-free PUTs on `id` with fresh request ids whose expected versions
      are v, v + 1, v + 2, ... in turn. */
  predicate Chained(s: State, inputs: seq<Input>, id: Id, v: int) {
    && (forall i :: 0 <= i < |inputs| ==>
          && inputs[i].Request?
          && inputs[i].faults == NoFaults
          && inputs[i].cmd.id == id
          && inputs[i].cmd.version == v + i
          && HasRequestId(inputs[i].cmd.requestId)
          && inputs[i].cmd.requestId.value !in s.processed)
    && (forall i, j :: 0 <= i < j < |inputs| && inputs[i].Request? && inputs[j].Request? ==>
          inputs[i].cmd.requestId != inputs[j].cmd.requestId)
  }

  /** Each command of a chain that starts at the stored version succeeds: the
      version rises by exactly one per command, each publishes one row, and
      the table keeps its keys. The i-th command publishes the row of `id`
      at version v + i + 1 with its own price. */
  lemma {:induction false} ChainedCommandsAllSucceed(s: State, region: Region, inputs: seq<Input>, id: Id)
    requires id in s.store
    requires Chained(s, inputs, id, s.store[id].version)
    ensures var t := Run(s, region, inputs);
      && id in t.store
      && t.store[id].version == s.store[id].version + |inputs|
      && |t.outbox| == |s.outbox| + |inputs|
      && t.store.Keys == s.store.Keys
      && var published := t.outbox[|s.outbox|..];
         forall i :: 0 <= i < |inputs| ==>
           && published[i].id == id
           && published[i].prop.version == s.store[id].version + i + 1
           && published[i].prop.price == inputs[i].cmd.price
    decreases |inputs|
  {
    if inputs != [] {
      var c := inputs[0];
      assert Commits(s, c.cmd, c.faults);
      var s1 := Step(s, region, c);
      var rest := inputs[1..];
      assert Chained(s1, rest, id, s1.store[id].version) by {
        forall i | 0 <= i < |rest|
          ensures && rest[i].Request?
                  && rest[i].faults == NoFaults
                  && rest[i].cmd.id == id
                  && rest[i].cmd.version == s1.store[id].version + i
                  && HasRequestId(rest[i].cmd.requestId)
                  && rest[i].cmd.requestId.value !in s1.processed
        {
          assert rest[i] == inputs[i + 1];
          assert inputs[0].cmd.requestId != inputs[i + 1].cmd.requestId;
        }
        forall i, j | 0 <= i < j < |rest| && rest[i].Request? && rest[j].Request?
          ensures rest[i].cmd.requestId != rest[j].cmd.requestId
        {
          assert rest[i] == inputs[i + 1] && rest[j] == inputs[j + 1];
        }
      }
      ChainedCommandsAllSucceed(s1, region, rest, id);
      RunExtendsOutbox(s1, region, rest);
      var t := Run(s, region, inputs);
      assert t == Run(s1, region, rest);
      var published, published1 := t.outbox[|s.outbox|..], t.outbox[|s1.outbox|..];
      forall i | 0 <= i < |inputs|
        ensures && published[i].id == id
                && published[i].prop.version == s.store[id].version + i + 1
                && published[i].prop.price == inputs[i].cmd.price
      {
        if i == 0 {
          assert s1.outbox == s.outbox + [Row(id, s1.store[id])];
          assert published[0] == s1.outbox[|s.outbox|];
        } else {
          assert rest[i - 1] == inputs[i];
          assert published[i] == published1[i - 1];
        }
      }
    }
  }

  /** A row committed by the backend of one region and delivered to the
      backend of another brings that replica's copy to the same price,
      version and updated_at; if the two copies already agreed on the other
      columns, the copies are then equal. */
  lemma CommitPropagates(a: State, b: State, regionB: Region, cmd: Put, now: int)
    requires Handle(a, cmd, now, NoFaults).response.Updated?
    requires Handle(a, cmd, now, NoFaults).response.row.prop.regionOrigin != regionB
    ensures var a' := Handle(a, cmd, now, NoFaults).next;
      var b' := Apply(b, regionB, Handle(a, cmd, now, NoFaults).response.row, false);
      && cmd.id in b'.store
      && b'.store[cmd.id].price == a'.store[cmd.id].price == cmd.price
      && b'.store[cmd.id].version == a'.store[cmd.id].version
      && b'.store[cmd.id].updatedAt == a'.store[cmd.id].updatedAt == now
      && b'.lastReplicated == Some(now)
      && (cmd.id in b.store && b.store[cmd.id].bedrooms == a.store[cmd.id].bedrooms
          && b.store[cmd.id].bathrooms == a.store[cmd.id].bathrooms
          && b.store[cmd.id].regionOrigin == a.store[cmd.id].regionOrigin
          ==> b'.store[cmd.id] == a'.store[cmd.id])
  {
  }

  /** The published row carries the region_origin the row already had, not
      the region that served the PUT (`Handle` takes no region at all). So
      the backend of the region named by the stored origin takes the event
      for one of its own and drops it, leaving its copy as it was. This holds
      for every committed row; it matters when the row first written in
      region B is updated in region A, since B then never sees A's update. */
  lemma CommitOfForeignRowIsDroppedAtItsOrigin(a: State, b: State, cmd: Put, now: int)
    requires Handle(a, cmd, now, NoFaults).response.Updated?
    ensures var row := Handle(a, cmd, now, NoFaults).response.row;
      && row.prop.regionOrigin == a.store[cmd.id].regionOrigin
      && Apply(b, a.store[cmd.id].regionOrigin, row, false) == b
  {
  }

  /** The other half of the same consequence: when the stored origin of the
      updated row is not the local region, this backend's own consumer takes
      the event it just published for a remote one. Applying it leaves the
      table as the commit left it, but the lag timestamp moves to this
      backend's own commit time. */
  lemma CommitOfForeignRowIsReappliedLocally(a: State, regionA: Region, cmd: Put, now: int)
    requires Handle(a, cmd, now, NoFaults).response.Updated?
    requires a.store[cmd.id].regionOrigin != regionA
    ensures var o := Handle(a, cmd, now, NoFaults);
      var back := Apply(o.next, regionA, o.response.row, false);
      && back.store == o.next.store
      && back.lastReplicated == Some(now)
  {
  }

  /** The GET after a PUT: a commit makes the lookup of the id return the
      row the 200 carries, and no other id's lookup changes; a PUT that does
      not commit changes no lookup at all. */
  lemma GetAfterHandle(s: State, cmd: Put, now: int, f: Faults)
    ensures var o := Handle(s, cmd, now, f);
      && (o.response.Updated? ==> Lookup.Get(o.next, cmd.id) == Some(o.response.row))
      && (Commits(s, cmd, f) ==> Lookup.Get(o.next, cmd.id).Some?)
      && (forall k :: k != cmd.id || !Commits(s, cmd, f) ==> Lookup.Get(o.next, k) == Lookup.Get(s, k))
  {
  }

  /** The GET after a delivery: an event whose region_origin is the local
      region, or a failed write, changes no lookup; an applied event makes
      its id found, with the whole event row when the id was new, and changes
      no other id's lookup. */
  lemma GetAfterApply(s: State, region: Region, e: Row, writeFails: bool)
    ensures var s' := Apply(s, region, e, writeFails);
      && (forall k :: k != e.id || !Foreign(region, e) || writeFails ==>
            Lookup.Get(s', k) == Lookup.Get(s, k))
      && (Foreign(region, e) && !writeFails ==> Lookup.Get(s', e.id).Some?)
      && (Foreign(region, e) && !writeFails && e.id !in s.store ==> Lookup.Get(s', e.id) == Some(e))
  {
  }

  /** Right after a remote event with updated_at T is applied, the reported
      lag is now - T, rounded to centiseconds. */
  lemma LagAfterApply(s: State, region: Region, e: Row, now: int)
    requires Foreign(region, e)
    ensures Lag.RoundsTo(now - e.prop.updatedAt,
                         Lag.LagCentis(Apply(s, region, e, false).lastReplicated, now))
  {
  }

  /** Requests never move the lag timestamp; only applied remote events do. */
  lemma {:induction false} LocalRunKeepsLag(s: State, region: Region, inputs: seq<Input>)
    requires AllRequests(inputs)
    ensures Run(s, region, inputs).lastReplicated == s.lastReplicated
    decreases |inputs|
  {
    if inputs != [] {
      assert AllRequests(inputs[1..]) by {
        forall i | 0 <= i < |inputs[1..]| ensures inputs[1..][i].Request? {
          assert inputs[1..][i] == inputs[i + 1];
        }
      }
      LocalRunKeepsLag(Step(s, region, inputs[0]), region, inputs[1..]);
    }
  }
}
